=== FILE: README.md ===
# git-fixme, modelled in Dafny

git-fixme walks the working tree of a git repository from the current
directory and reports every line that holds a marker key ("FIXME" unless the
`GIT_FIXME_KEYS` environment variable gives a `:`-separated list). It only
looks at files that are tracked in the index and not ignored. It prints
`path:line` for each marker line, only `path` with `--file`, and
`path:line @ commit` with `--insertion`, where the commit comes from blame.

This project models the one source file, `src/main.rs`. Git, the filesystem
and printing become plain inputs and outputs:

- `Markers` (`markers.dfy`): `line_patches`. It covers the key list derived
  from the setting (Rust's `split(':')`, which keeps empty pieces) and the
  substring test (Rust's `contains`, where the empty key occurs everywhere).
- `Paths` (`paths.dfy`): `path_to_repository_local`. Paths are sequences of
  components, and prefixes are compared and stripped component by component.
- `Repository` (`repository.dfy`): the git2 services as data. These are the
  working-tree root, the ignore query, the index (absent when it cannot be
  opened) and blame.
- `Classify` (`classify.dfy`): `DirAction` and `generate_action`.
- `Scanner` (`scanner.dfy`): `handle_file`. A file is the sequence of results
  `read_line` would return. `ReadLoop` is the loop as written. It starts from
  `contents = "a"` and counts matches in `i`. It breaks at a match in file
  mode. Otherwise a match pops the last character of `contents` itself, and
  the loop test `contents.len() > 0` then sees the popped text.
  `ReadLoop` is proved equal to `ScanFile`, a declarative reading. The loop
  stops at the first read that fails, is empty, matches in file mode, or is
  a one-character match, which the pop leaves empty. Every text read up to
  and including the stopping one is tested, unless that read failed. There
  is one record per match.
- `Walker` (`walker.dfy`): `iterate_directory` over an abstract directory
  tree. It returns the records in print order and one error flag.

Behaviour of the code that the model keeps on purpose:

- The empty text returned at end of file is tested too, when the loop gets
  that far. With an empty key (`GIT_FIXME_KEYS=""`, or a setting with a
  trailing `:`), every line matches. So does that empty text, which, outside
  file mode, adds one more record with empty content (`Scanner.EmptySettingMatchesEndOfFile`).
- The pop at line 89 changes `contents` before the loop test at line 73 runs
  again. Outside file mode, a matching text of one character ends the scan.
  With an empty key this is any blank line `"\n"`: the lines after it are
  never read, and a read error after it is never reached
  (`Scanner.BlankLineEndsScan`, `Scanner.BlankLineHidesReadError`).
- `contents.pop()` removes the last character whatever it is. A last line
  without a newline loses a real character (`Scanner.LastLineWithoutNewline`).
- Blame is asked about line `i + 1`, and `i` counts only matches. So it is
  the number of earlier matches plus one, not the line's position
  (`Scanner.BlameFollowsMatchCount`).
- In file mode the loop breaks at the first match. A read error later in the
  file is never reached, so the file counts as a success
  (`Scanner.FileModeHidesReadError`).

Other behaviour of the code that the model follows:

- An empty setting is not replaced by the default key. Line 56 splits `""`
  into the single empty key, which matches every line. Only an unset or
  non-Unicode variable gives "FIXME" (lines 51-54).
- Content that is not UTF-8 makes `read_line` fail. The file then returns
  `Err` (lines 75-78), and the walk records an error (lines 166-169).
- A record carries no line number and there is no summary count. The default
  record is `path:content` (lines 80 and 90).

## Model

| member | source | states |
|---|---|---|
| Markers.Split | src/main.rs:56 | Rust's `split(':')`: there is always at least one piece, and no piece holds `:`. Empty pieces are kept (JoinSplit and SplitJoin make this exact). |
| Markers.Keys | src/main.rs:51-56 | With no setting the keys are exactly ["FIXME"]. Otherwise the keys are the `:`-separated pieces of the setting: there is at least one, none holds `:`, and joined with `:` they give the setting back. |
| Markers.JoinSplit | src/main.rs:56 | Joining the pieces of `split(':')` with `:` gives back the original setting. |
| Markers.SplitJoin | src/main.rs:56 | Splitting a `:`-join of `:`-free pieces gives back exactly those pieces, empty pieces included. |
| Markers.SplitWithoutSeparator | src/main.rs:56 | A setting without `:` is one key. |
| Markers.Contains | src/main.rs:59 | Rust's `str::contains`: the empty key is contained in every line, and a key longer than the line is never contained. |
| Markers.ContainsIff | src/main.rs:59 | The substring test holds exactly when the key occurs at some position of the line. |
| Markers.EmptyKeyOccursEverywhere | src/main.rs:59 | The empty key is contained in every line, the empty line included. |
| Markers.AnyKeyIn | src/main.rs:58-64 | The `for key in keys` loop, trying the keys in order and stopping at the first one found: a match needs at least one key. AnyKeyInIff gives the full characterisation. |
| Markers.AnyKeyInIff | src/main.rs:58-64 | The loop, which returns at the first key found, answers true iff some key is contained in the line. |
| Markers.LinePatches | src/main.rs:49-65 | `line_patches`. Without the variable, it matches exactly the lines that contain "FIXME". LinePatchesIff and EmptyPieceMatchesEverything cover the other settings. |
| Markers.LinePatchesIff | src/main.rs:49-65 | A line matches iff at least one key of the setting occurs in it. The answer is one truth value, however many keys occur. |
| Markers.DefaultMatchesFixme | src/main.rs:51-54 | Without a setting, a line matches iff "FIXME" occurs in it. |
| Markers.EmptyPieceMatchesEverything | src/main.rs:51-62 | A setting with an empty piece (for example "" or "TODO:") makes every line match, the empty line included. |
| Markers.TwoKeySetting | src/main.rs:56-62 | A setting `first:second` (such as "TODO:FIXME") gives exactly the keys [first, second], and a line holding either of them matches. |
| Paths.StripPrefix | src/main.rs:46 | Component-wise prefix stripping. The result is None iff the path does not start with the root; otherwise it is the remainder `rel`, with `root + rel == path`. |
| Paths.RepositoryLocal | src/main.rs:40-47 | None iff the path does not start with the repository root, component-wise; otherwise `Some(rel)` with `root + rel == path`. |
| Paths.LocalIsUnique | src/main.rs:40-47 | For a path `root + rel`, the relative path is exactly `rel`. |
| Paths.ChildStaysLocal | src/main.rs:40-47 | An entry of a directory below the root is below the root too, and its relative path is the directory's relative path plus its name. |
| Classify.GenerateAction | src/main.rs:107-146 | A metadata or ignore-check error gives Nothing(true), and only those do; metadata is tested first. Enter iff a non-ignored directory; Check iff a non-ignored file whose relative path is in an index that opened. Enter and Check carry the entry's own path. An ignored entry, directory or file, gives Nothing(false). |
| Classify.UntrackedIsSkipped | src/main.rs:130-143 | A non-ignored file that is missing from the index, or found when the index cannot be opened, gives Nothing(false). |
| Scanner.EndsIff | src/main.rs:73-89 | The loop does not run again after a read that fails, returns the empty text, matches in file mode (the break), or, outside file mode, is a match of exactly one character, which the pop leaves empty. |
| Scanner.StopIsFirst | src/main.rs:73-89 | The scan stops at the first read that ends the loop. Every earlier read let the loop go on. |
| Scanner.TestedShape | src/main.rs:73-89 | The texts the line test sees are the lines read before the stop, in order. None of them is empty, a match in file mode, or a one-character match otherwise. Then comes the text that stopped the loop, unless that read failed. |
| Scanner.AllLinesRead | src/main.rs:73-89 | When no read of a file ends the loop, the scan does not fail, and it tests every line and then the empty end-of-file text. |
| Scanner.MatchingMembers | src/main.rs:79 | The matched texts are exactly the tested texts that pass the line test, and there are no more of them than texts. |
| Scanner.MatchingPrefix | src/main.rs:79-86 | The matches among the first lines read are a prefix of the matches of the whole scan. |
| Scanner.MatchingSnoc | src/main.rs:79-101 | Testing one more line adds that line to the matches once if it passes the line test, however many keys it holds, and adds nothing otherwise. |
| Scanner.DropLast | src/main.rs:89 | Popping removes exactly the last character, whatever it is, and leaves an empty text unchanged. |
| Scanner.MatchRecord | src/main.rs:88-100 | The record for one match outside file mode: it names the file, holds the matched text minus its last character, and is an insertion record exactly in insertion mode. |
| Scanner.ScanFile | src/main.rs:67-105 | The declarative scan that ReadLoop is proved equal to. A file that cannot be opened gives no records and failure. File mode gives at most one record. Otherwise there is one record per matching tested text. |
| Scanner.ScanFileShape | src/main.rs:67-105 | In file mode there is at most one record, the bare path, and it is there iff a tested text matched. Otherwise there is one record per matching text, in order, holding the text minus its last character. In insertion mode the j-th match is blamed at line j+1. The scan fails iff the file cannot be opened or the read that stopped the loop failed. |
| Scanner.HandleFile | src/main.rs:67-105 | The loop as written (through ReadLoop) computes the declarative scan ScanFile, and so has every property listed for ScanFileShape. |
| Scanner.ReadLoop | src/main.rs:70-104 | The while loop: contents starts as "a", a match outside file mode pops `contents` itself before the loop test, `i` grows only on matches, file mode breaks at the first match, and a read error returns at once and keeps the records already emitted. Its records and outcome equal ScanFile's. |
| Scanner.PrintMatch | src/main.rs:90-100 | The output of one match outside file mode: the path and the already popped text. Insertion mode adds the revision blame gives for line `i + 1` of the file's repository-relative path, and only insertion mode does. |
| Scanner.MarkerOnThirdLine | src/main.rs:79-100 | A file whose third line holds FIXME gives one record, `path:` plus that line without its newline, and success. |
| Scanner.FileModeReportsOnce | src/main.rs:82-86 | In file mode a file with two marker lines gives the path once, and its second line is never tested. |
| Scanner.SingleLineFile | src/main.rs:73-90 | When the empty end-of-file text does not match (no empty piece in the setting), a file of a single matching line gives one record holding that line minus its last character, and success. This holds both for a one-character line, which the pop empties so the loop stops, and for a longer line followed by the end-of-file text. |
| Scanner.LastLineWithoutNewline | src/main.rs:89 | A last line "FIXME" with no newline is reported as "FIXM". |
| Scanner.BlameFollowsMatchCount | src/main.rs:93-101 | In insertion mode a marker on line 2 after an unmarked line 1 is blamed at line 1: the blamed line is the match count plus one. |
| Scanner.EmptyPieceKeepsAll | src/main.rs:51-62 | With an empty piece in the setting, every tested text is a match. |
| Scanner.EmptySettingMatchesEndOfFile | src/main.rs:73-90 | With an empty setting, outside file mode, when the loop reaches the end of the file, the empty end-of-file text matches too and adds a record with empty content. |
| Scanner.BlankLineEndsScan | src/main.rs:73-90 | With an empty setting, the lines "a", blank, "b" give only the records `a` and the empty text, and success: the popped blank line ends the loop before "b" is read. |
| Scanner.BlankLineHidesReadError | src/main.rs:73-90 | With an empty setting, a blank line followed by a read error gives one empty record and success: the error is never read. |
| Scanner.ReadErrorAfterMatch | src/main.rs:73-90 | Outside file mode, after a match of more than one character, a read error fails the file, and the record of the match stays emitted. |
| Scanner.FileModeHidesReadError | src/main.rs:73-86 | In file mode the loop breaks at the first match, so a read error after it is never reached and the file counts as a success. |
| Walker.IterateDirectory | src/main.rs:148-184 | Walks the entries in order, depth first. Every record it produces names a path below the walked directory. |
| Walker.VisitEntry | src/main.rs:153-177 | An unreadable entry gives no records and an error. Entries classified Nothing(b) give no records and error b. Every record of an entry lies below that entry's path. |
| Walker.WalkAppend | src/main.rs:152-178 | Walking a listing in two stretches gives the two results one after the other, with the errors or-ed. There is no early exit. |
| Walker.ErrorIffSomeEntryFails | src/main.rs:150-183 | The walk reports an error iff some entry of the directory fails. |
| Walker.EntryFailureCases | src/main.rs:153-176 | An entry fails iff it is unreadable, is classified Nothing(true), is a directory whose walk failed, or is a checked file whose scan failed. |
| Walker.FileModePrintsNames | src/main.rs:148-184 | In file mode every record of the walk is a bare file name. |
| Walker.FileModePrintsNamesEntry | src/main.rs:165-170 | In file mode an entry prints only file names, and a checked file prints its own path at most once. |
| Walker.SkippedEntryIsInert | src/main.rs:171-176 | Removing an entry classified Nothing(false) from a listing changes neither the records nor the error flag: it is never scanned or entered. |
| Walker.IgnoredEntryIsInert | src/main.rs:112-124 | Ignored entries with readable metadata, directories and files alike, leave the walk's output and error flag unchanged. |
| Walker.UntrackedFileIsInert | src/main.rs:112-143 | Files with readable metadata that are not ignored and are missing from the index (or any such file when the index cannot be opened) leave the walk's output and error flag unchanged. |

## Left out

- Git access (`Repository::discover`, `is_path_ignored`, `index`, `get_path`,
  `blame_file`, `final_commit_id`) is foreign library code. It appears only as
  the inputs of `Repository.Repo`: an ignore query, an optional set of
  tracked relative paths, and a blame function.
- Filesystem I/O (`fs::read_dir`, `File::open`, `BufReader`, UTF-8 decoding)
  is not modelled. A directory is a given list of entries, and a file is
  either unopenable or a given sequence of `read_line` results.
- Printing is not modelled. Output is a sequence of records. The error
  messages printed at lines 113 and 118 and the final `error: ...` line are
  not modelled.
- `main`, `run` and docopt argument parsing are command-line plumbing; the
  two flags are booleans in `Scanner.Flags`. The usage text (lines 16-20)
  lists `--insertion` and `--file` as separate patterns, so the program never
  runs with both. `Flags(true, true)` is defined only to keep the model
  total; the loop then behaves as in file mode.
- The panicking `unwrap`s become preconditions or total inputs:
  - line 137 and line 95: the walked directory, and in insertion mode the
    scanned file, must lie below the repository root;
  - lines 95-96: blame answers for every line;
  - line 149: every directory can be listed.
- Scanner.HandleFile: requires a path below the root whenever insertion mode
  is on. The program only panics there when a match is actually reported.
- Rust's path normalisation (`.` components, repeated separators) is not
  modelled. Components are compared as plain strings.

=== FILE: classify.dfy ===
/** Entry classification (`generate_action`): what the walk does with one
    directory entry. */
module Classify {
  import opened Paths
  import opened Repository

  /** Enter a directory, check a file, or do nothing; `Nothing(true)`
      records that the entry could not be classified. */
  datatype DirAction = Enter(path: Path) | Check(path: Path) | Nothing(isError: bool)

  /** Outcome of reading an entry's metadata. */
  datatype Metadata = MetaOk(isDir: bool) | MetaErr

  /** The index lookup is reached: metadata and ignore query succeeded,
      the entry is a file that is not ignored, and the index opened. */
  predicate ReachesIndexLookup(repo: Repo, path: Path, meta: Metadata) {
    meta == MetaOk(false) && repo.isIgnored(path) == IgnoreOk(false) && repo.index.Some?
  }

  /** Classifies the entry at `path`. The index is keyed by the path
      relative to the repository root; a path outside the root at that
      point is a panic in the program, excluded by the precondition. */
  function GenerateAction(repo: Repo, path: Path, meta: Metadata): (action: DirAction)
    requires ReachesIndexLookup(repo, path, meta) ==> StartsWith(path, repo.root)
    // a failed metadata read or ignore query is an error
    ensures action == Nothing(true) <==> meta.MetaErr? || repo.isIgnored(path).IgnoreErr?
    // only directories that are not ignored are entered, under their own path
    ensures action.Enter? <==> meta == MetaOk(true) && repo.isIgnored(path) == IgnoreOk(false)
    // only tracked files that are not ignored are checked
    ensures action.Check? <==>
              meta == MetaOk(false) && repo.isIgnored(path) == IgnoreOk(false)
              && repo.index.Some? && RepositoryLocal(path, repo.root).value in repo.index.value
    ensures action.Enter? || action.Check? ==> action.path == path
    // an ignored entry is skipped silently, directory or file
    ensures meta.MetaOk? && repo.isIgnored(path) == IgnoreOk(true) ==> action == Nothing(false)
  {
    var ignored := repo.isIgnored(path);
    if meta.MetaErr? then Nothing(true)
    else if ignored.IgnoreErr? then Nothing(true)
    else if ignored.ignored then Nothing(false)
    else if meta.isDir then Enter(path)
    else if repo.index.None? then Nothing(false)
    else if RepositoryLocal(path, repo.root).value in repo.index.value then Check(path)
    else Nothing(false)
  }

  /** A file that is present on disk but not in the index is never checked,
      and neither is any file when the index cannot be opened. */
  lemma UntrackedIsSkipped(repo: Repo, path: Path)
    requires StartsWith(path, repo.root)
    requires repo.isIgnored(path) == IgnoreOk(false)
    requires repo.index.None? || RepositoryLocal(path, repo.root).value !in repo.index.value
    ensures GenerateAction(repo, path, MetaOk(false)) == Nothing(false)
  {
  }
}

=== FILE: markers.dfy ===
/** Marker matching: the keys a line is tested against and the test itself.
    The keys come from the GIT_FIXME_KEYS setting, split on ':'; when the
    setting is absent the only key is "FIXME". */
module Markers {
  import opened Wrappers

  /** The key used when no setting is present. */
  const DefaultKey: string := "FIXME"

  /** The separator between keys in the setting. */
  const Separator: char := ':'

  /* ---------------------------------------------------------------- */
  /* Substrings                                                        */
  /* ---------------------------------------------------------------- */

  /** `key` occurs in `s` starting at position `i`. */
  ghost predicate OccursAt(s: string, key: string, i: int) {
    0 <= i && i + |key| <= |s| && s[i..i + |key|] == key
  }

  /** Substring test by scanning start positions left to right; an empty
      key occurs in every string, as with Rust's `str::contains`. */
  predicate Contains(s: string, key: string)
    ensures key == [] ==> Contains(s, key)
    ensures Contains(s, key) ==> |key| <= |s|
    decreases |s|
  {
    if |key| > |s| then false
    else if s[..|key|] == key then true
    else Contains(s[1..], key)
  }

  /** `Contains` is exactly "occurs at some position". */
  lemma {:induction false} ContainsIff(s: string, key: string)
    ensures Contains(s, key) <==> exists i :: OccursAt(s, key, i)
    decreases |s|
  {
    if |key| > |s| {
    } else if s[..|key|] == key {
      assert OccursAt(s, key, 0);
    } else {
      ContainsIff(s[1..], key);
      if Contains(s[1..], key) {
        var i :| OccursAt(s[1..], key, i);
        assert s[1..][i..i + |key|] == s[i + 1..i + 1 + |key|];
        assert OccursAt(s, key, i + 1);
      }
      if exists i :: OccursAt(s, key, i) {
        var i :| OccursAt(s, key, i);
        assert i != 0;
        assert s[1..][i - 1..i - 1 + |key|] == s[i..i + |key|];
        assert OccursAt(s[1..], key, i - 1);
      }
    }
  }

  /** The empty key is found in every line, the empty line included. */
  lemma EmptyKeyOccursEverywhere(s: string)
    ensures Contains(s, "")
  {
    assert s[..0] == "";
  }

  /* ---------------------------------------------------------------- */
  /* Splitting the setting                                             */
  /* ---------------------------------------------------------------- */

  /** Splits `s` at every `sep`, keeping empty pieces, as Rust's
      `str::split` with a character pattern does: there is always one
      more piece than there are separators, and no piece holds `sep`. */
  function Split(s: string, sep: char): (parts: seq<string>)
    ensures |parts| >= 1
    ensures forall j :: 0 <= j < |parts| ==> sep !in parts[j]
    decreases |s|
  {
    if |s| == 0 then [""]
    else
      var rest := Split(s[1..], sep);
      if s[0] == sep then [""] + rest
      else [[s[0]] + rest[0]] + rest[1..]
  }

  /** Concatenates `parts` with `sep` between neighbours. */
  function Join(parts: seq<string>, sep: char): string
    requires |parts| >= 1
  {
    parts[0] + Prefixed(parts[1..], sep)
  }

  /** Each of `parts` preceded by `sep`, concatenated. */
  function Prefixed(parts: seq<string>, sep: char): string
    decreases |parts|
  {
    if |parts| == 0 then "" else [sep] + parts[0] + Prefixed(parts[1..], sep)
  }

  /** Joining the pieces of a split gives back the setting. */
  lemma {:induction false} JoinSplit(s: string, sep: char)
    ensures Join(Split(s, sep), sep) == s
    decreases |s|
  {
    if |s| > 0 {
      var rest := Split(s[1..], sep);
      JoinSplit(s[1..], sep);
      assert Prefixed(rest, sep) == [sep] + Join(rest, sep);
      var parts := Split(s, sep);
      if s[0] == sep {
        assert parts[1..] == rest;
        assert Join(parts, sep) == "" + Prefixed(rest, sep);
      } else {
        assert parts[1..] == rest[1..];
        assert Join(parts, sep) == [s[0]] + rest[0] + Prefixed(rest[1..], sep);
      }
      assert s == [s[0]] + s[1..];
    }
  }

  /** Splitting a joined list of separator-free pieces gives the pieces back. */
  lemma {:induction false} SplitJoin(parts: seq<string>, sep: char)
    requires |parts| >= 1
    requires forall j :: 0 <= j < |parts| ==> sep !in parts[j]
    ensures Split(Join(parts, sep), sep) == parts
    decreases |parts|, |parts[0]|
  {
    var s := Join(parts, sep);
    var p0 := parts[0];
    if |p0| > 0 {
      var parts' := parts[0 := p0[1..]];
      assert sep !in p0[1..] by {
        assert forall c :: c in p0[1..] ==> c in p0;
      }
      assert parts'[1..] == parts[1..];
      SplitJoin(parts', sep);
      assert s[0] == p0[0];
      assert s[1..] == Join(parts', sep);
      assert Split(s, sep) == [[p0[0]] + parts'[0]] + parts'[1..];
      assert [p0[0]] + p0[1..] == p0;
    } else if |parts| > 1 {
      SplitJoin(parts[1..], sep);
      assert s == [sep] + Join(parts[1..], sep);
      assert s[1..] == Join(parts[1..], sep);
      assert Split(s, sep) == [""] + parts[1..];
    } else {
      assert s == "";
    }
  }

  /** A setting without separators is a single key. */
  lemma {:induction false} SplitWithoutSeparator(s: string, sep: char)
    requires sep !in s
    ensures Split(s, sep) == [s]
    decreases |s|
  {
    if |s| > 0 {
      assert sep !in s[1..] by {
        assert forall c :: c in s[1..] ==> c in s;
      }
      SplitWithoutSeparator(s[1..], sep);
      assert [s[0]] + s[1..] == s;
    }
  }

  /* ---------------------------------------------------------------- */
  /* Keys and the line test                                            */
  /* ---------------------------------------------------------------- */

  /** The keys for a setting; `None` stands for an environment lookup that
      failed (the variable is unset or not valid Unicode). */
  function Keys(setting: Option<string>): (keys: seq<string>)
    ensures |keys| >= 1
    ensures setting.None? ==> keys == [DefaultKey]
    ensures setting.Some? ==> Join(keys, Separator) == setting.value
    ensures forall j :: 0 <= j < |keys| ==> Separator !in keys[j]
  {
    match setting
    case None => [DefaultKey]
    case Some(v) => JoinSplit(v, Separator); Split(v, Separator)
  }

  /** True when some key occurs in `line`; the keys are tried in order and
      the first hit ends the search. */
  predicate AnyKeyIn(keys: seq<string>, line: string)
    ensures AnyKeyIn(keys, line) ==> |keys| > 0
    decreases |keys|
  {
    if |keys| == 0 then false
    else if Contains(line, keys[0]) then true
    else AnyKeyIn(keys[1..], line)
  }

  /** The line test (`line_patches`), with the keys derived from the setting. */
  predicate LinePatches(setting: Option<string>, line: string)
    ensures setting.None? ==> (LinePatches(setting, line) <==> Contains(line, DefaultKey))
  {
    AnyKeyIn(Keys(setting), line)
  }

  /** A line matches exactly when at least one key of the setting occurs in
      it; a line holding several keys is still one match, since the answer
      is a single truth value. */
  lemma LinePatchesIff(setting: Option<string>, line: string)
    ensures LinePatches(setting, line) <==>
              exists j :: 0 <= j < |Keys(setting)| && exists i :: OccursAt(line, Keys(setting)[j], i)
  {
    var keys := Keys(setting);
    AnyKeyInIff(keys, line);
    forall j | 0 <= j < |keys| {
      ContainsIff(line, keys[j]);
    }
  }

  lemma {:induction false} AnyKeyInIff(keys: seq<string>, line: string)
    ensures AnyKeyIn(keys, line) <==> exists j :: 0 <= j < |keys| && Contains(line, keys[j])
    decreases |keys|
  {
    if |keys| > 0 && !Contains(line, keys[0]) {
      AnyKeyInIff(keys[1..], line);
      if exists j :: 0 <= j < |keys| && Contains(line, keys[j]) {
        var j :| 0 <= j < |keys| && Contains(line, keys[j]);
        assert keys[1..][j - 1] == keys[j];
      }
    }
  }

  /** Without a setting, a line matches exactly when "FIXME" occurs in it. */
  lemma DefaultMatchesFixme(line: string)
    ensures LinePatches(None, line) <==> exists i :: OccursAt(line, DefaultKey, i)
  {
    LinePatchesIff(None, line);
  }

  /** An empty setting (or one with an empty piece, such as a trailing ':')
      yields the empty key, so every line matches, the empty one included. */
  lemma EmptyPieceMatchesEverything(v: string, line: string)
    requires "" in Split(v, Separator)
    ensures LinePatches(Some(v), line)
  {
    var j :| 0 <= j < |Split(v, Separator)| && Split(v, Separator)[j] == "";
    EmptyKeyOccursEverywhere(line);
    AnyKeyInIff(Keys(Some(v)), line);
  }

  /** A two-key setting `first:second` (such as "TODO:FIXME") yields
      exactly those two keys, and a line holding either key matches. */
  lemma TwoKeySetting(first: string, second: string, line: string)
    requires Separator !in first && Separator !in second
    requires (exists i :: OccursAt(line, first, i)) || (exists i :: OccursAt(line, second, i))
    ensures Keys(Some(first + [Separator] + second)) == [first, second]
    ensures LinePatches(Some(first + [Separator] + second), line)
  {
    var setting := first + [Separator] + second;
    assert Prefixed([second], Separator) == [Separator] + second;
    assert Join([first, second], Separator) == setting;
    SplitJoin([first, second], Separator);
    LinePatchesIff(Some(setting), line);
    if exists i :: OccursAt(line, first, i) {
      assert Keys(Some(setting))[0] == first;
    } else {
      assert Keys(Some(setting))[1] == second;
    }
  }
}

=== FILE: paths.dfy ===
/** Paths as sequences of components, and the conversion of an absolute
    path into one relative to the repository root
    (`path_to_repository_local`). Comparison is component-wise, as with
    Rust's `Path::starts_with`: "/a/bc" does not start with "/a/b". */
module Paths {
  import opened Wrappers

  type Component = string
  type Path = seq<Component>

  /** `root` is a component-wise prefix of `path`. */
  predicate StartsWith(path: Path, root: Path) {
    |root| <= |path| && path[..|root|] == root
  }

  /** Removes the leading components of `path` that `root` names, one at a
      time; `None` as soon as a component differs or `path` runs out. */
  function StripPrefix(path: Path, root: Path): (rel: Option<Path>)
    ensures rel.None? <==> !StartsWith(path, root)
    ensures rel.Some? ==> root + rel.value == path
    decreases |root|
  {
    if |root| == 0 then Some(path)
    else if |path| == 0 || path[0] != root[0] then None
    else
      var rest := StripPrefix(path[1..], root[1..]);
      if rest.Some? then
        assert root + rest.value == [root[0]] + (root[1..] + rest.value);
        rest
      else
        rest
  }

  /** `path` relative to the repository root `root`, or `None` when it is
      not below the root. */
  function RepositoryLocal(path: Path, root: Path): (rel: Option<Path>)
    ensures rel.None? <==> !StartsWith(path, root)
    ensures rel.Some? ==> root + rel.value == path
  {
    if !StartsWith(path, root) then None
    else Some(StripPrefix(path, root).value)
  }

  /** The relative path is the only one that completes the root. */
  lemma LocalIsUnique(root: Path, rel: Path)
    ensures RepositoryLocal(root + rel, root) == Some(rel)
  {
    assert (root + rel)[..|root|] == root;
    var r := RepositoryLocal(root + rel, root).value;
    assert root + r == root + rel;
    assert r == (root + r)[|root|..];
  }

  /** Appending a component keeps a path below the root, and its relative
      path grows by the same component. */
  lemma ChildStaysLocal(dir: Path, root: Path, name: Component)
    requires StartsWith(dir, root)
    ensures StartsWith(dir + [name], root)
    ensures RepositoryLocal(dir + [name], root) == Some(RepositoryLocal(dir, root).value + [name])
  {
    assert (dir + [name])[..|root|] == dir[..|root|];
    var rel := RepositoryLocal(dir, root).value;
    assert dir + [name] == root + (rel + [name]);
    LocalIsUnique(root, rel + [name]);
  }
}

=== FILE: repository.dfy ===
/** The repository services the scanner relies on, as plain inputs: the
    working-tree root, the ignore query, the index and line attribution
    (blame). They stand for git2's `Repository` and are not computed here. */
module Repository {
  import opened Wrappers
  import opened Paths

  /** Outcome of asking whether a path is ignored. */
  datatype IgnoreCheck = IgnoreOk(ignored: bool) | IgnoreErr

  /** A revision identifier, as printed after " @ ". */
  type RevisionId = string

  /** `root` is the working-tree root (the parent of the `.git` directory);
      `isIgnored` answers for an absolute path; `index` is the set of
      tracked paths relative to `root`, or `None` when the index cannot be
      opened; `blame(rel, n)` is the final commit of line `n` (1-based) of
      the tracked file `rel`. */
  datatype Repo = Repo(
    root: Path,
    isIgnored: Path -> IgnoreCheck,
    index: Option<set<Path>>,
    blame: (Path, nat) -> RevisionId)
}

=== FILE: scanner.dfy ===
/** The per-file scan (`handle_file`): read lines and test each one against
    the keys, emitting one record per match, or only the file name in file
    mode. The loop runs while `contents` is non-empty, and a match pops its
    last character in place, so the empty end-of-file text, a failed read,
    a file-mode match or a one-character match ends it. */
module Scanner {
  import opened Wrappers
  import opened Paths
  import opened Repository
  import Markers

  /** One call of `read_line`: the text read, which keeps its '\n' and is
      empty exactly at end of file, or a failure (an I/O error, or bytes
      that are not UTF-8). */
  datatype ReadResult = Read(text: string) | ReadError

  /** A file either cannot be opened or yields a sequence of read results;
      once the sequence is exhausted, every further read is empty. */
  datatype FileContent = Unopenable | Readable(results: seq<ReadResult>)

  /** The two command-line flags, `--file` and `--insertion`. */
  datatype Flags = Flags(file: bool, insertion: bool)

  /** What one match prints: `path` alone (file mode), `path:content`, or
      `path:content @ rev` (insertion mode). */
  datatype Record =
    | FileName(path: Path)
    | LineRecord(path: Path, content: string)
    | Insertion(path: Path, content: string, rev: RevisionId)

  datatype ScanResult = ScanResult(records: seq<Record>, ok: bool)

  /* ---------------------------------------------------------------- */
  /* Reading                                                           */
  /* ---------------------------------------------------------------- */

  /** The `k`-th read; past the recorded results the file is at its end. */
  function ReadAt(results: seq<ReadResult>, k: nat): ReadResult {
    if k < |results| then results[k] else Read("")
  }

  /** What `contents` holds when the loop test runs again after text `t`
      was read and tested: a match has had its last character popped in
      place, anything else is left as read. */
  function After(setting: Option<string>, t: string): string {
    if Markers.LinePatches(setting, t) then DropLast(t) else t
  }

  /** A read after which the loop does not run again: it failed, it was a
      match in file mode (the loop breaks), or it left `contents` empty. */
  predicate Ends(flags: Flags, setting: Option<string>, r: ReadResult) {
    r.ReadError? || (flags.file && Markers.LinePatches(setting, r.text)) || After(setting, r.text) == ""
  }

  /** The reads that end the loop, case by case: a failure, the empty
      end-of-file text, any match in file mode, and otherwise a match of
      exactly one character, which the pop leaves empty. */
  lemma EndsIff(flags: Flags, setting: Option<string>, r: ReadResult)
    ensures Ends(flags, setting, r) <==>
              r.ReadError? || r.text == ""
              || (Markers.LinePatches(setting, r.text) && (flags.file || |r.text| == 1))
  {
  }

  /** Index of the first read that ends the loop, or `|results|` when none
      of the recorded reads does (the read after them is then the empty one). */
  function Stop(flags: Flags, setting: Option<string>, results: seq<ReadResult>): nat
    decreases |results|
  {
    if |results| == 0 || Ends(flags, setting, results[0]) then 0
    else 1 + Stop(flags, setting, results[1..])
  }

  /** `Stop` is the first read that ends the loop: every read before it
      yields a line that lets the loop go on. */
  lemma {:induction false} StopIsFirst(flags: Flags, setting: Option<string>, results: seq<ReadResult>)
    ensures Stop(flags, setting, results) <= |results|
    ensures forall j :: 0 <= j < Stop(flags, setting, results) ==> !Ends(flags, setting, results[j])
    ensures Stop(flags, setting, results) < |results| ==> Ends(flags, setting, results[Stop(flags, setting, results)])
    decreases |results|
  {
    if |results| > 0 && !Ends(flags, setting, results[0]) {
      StopIsFirst(flags, setting, results[1..]);
      forall j | 0 < j < Stop(flags, setting, results)
        ensures !Ends(flags, setting, results[j])
      {
        assert results[j] == results[1..][j - 1];
      }
    }
  }

  /** The scan ends on a read error. */
  predicate Failed(flags: Flags, setting: Option<string>, results: seq<ReadResult>) {
    var n := Stop(flags, setting, results);
    n < |results| && results[n].ReadError?
  }

  /** Text of the `j`-th read, "" for an error or past the end. */
  function TextAt(results: seq<ReadResult>, j: nat): string {
    if j < |results| && results[j].Read? then results[j].text else ""
  }

  /** The texts of the first `k` reads. */
  function Texts(results: seq<ReadResult>, k: nat): (ts: seq<string>)
    ensures |ts| == k
  {
    seq(k, j requires 0 <= j < k => TextAt(results, j))
  }

  /** Every text the loop hands to the line test: the texts up to and
      including the one that ends the loop, unless that read failed. */
  function Tested(flags: Flags, setting: Option<string>, results: seq<ReadResult>): seq<string> {
    var n := Stop(flags, setting, results);
    Texts(results, if Failed(flags, setting, results) then n else n + 1)
  }

  /** What is tested: lines that let the loop go on, in order; none of them
      is a match in file mode or a one-character match otherwise; then the
      text that ended the loop, unless a read failed. */
  lemma TestedShape(flags: Flags, setting: Option<string>, results: seq<ReadResult>)
    ensures var n := Stop(flags, setting, results);
      && |Tested(flags, setting, results)| == (if Failed(flags, setting, results) then n else n + 1)
      && (forall j :: 0 <= j < n ==>
            Tested(flags, setting, results)[j] != ""
            && results[j] == Read(Tested(flags, setting, results)[j])
            && !(Markers.LinePatches(setting, Tested(flags, setting, results)[j])
                 && (flags.file || |Tested(flags, setting, results)[j]| == 1)))
      && (!Failed(flags, setting, results) ==> ReadAt(results, n) == Read(Tested(flags, setting, results)[n]))
  {
    StopIsFirst(flags, setting, results);
    forall j | 0 <= j < Stop(flags, setting, results)
      ensures results[j].Read? && results[j].text != ""
      ensures !(Markers.LinePatches(setting, results[j].text) && (flags.file || |results[j].text| == 1))
    {
      EndsIff(flags, setting, results[j]);
    }
  }

  /** A file none of whose reads ends the loop is tested line by line, and
      then at the empty end-of-file text. */
  lemma AllLinesRead(flags: Flags, setting: Option<string>, results: seq<ReadResult>)
    requires forall j :: 0 <= j < |results| ==> !Ends(flags, setting, results[j])
    ensures Stop(flags, setting, results) == |results| && !Failed(flags, setting, results)
    ensures Tested(flags, setting, results)
            == seq(|results|, j requires 0 <= j < |results| => TextAt(results, j)) + [""]
  {
    StopIsFirst(flags, setting, results);
  }

  /* ---------------------------------------------------------------- */
  /* Matching lines                                                    */
  /* ---------------------------------------------------------------- */

  /** The texts in `ts` that pass the line test, in order. */
  function Matching(setting: Option<string>, ts: seq<string>): (ms: seq<string>)
    decreases |ts|
  {
    if |ts| == 0 then []
    else
      var last := ts[|ts| - 1];
      Matching(setting, ts[..|ts| - 1]) + (if Markers.LinePatches(setting, last) then [last] else [])
  }

  /** Exactly the matching texts are kept, and never more than there are. */
  lemma {:induction false} MatchingMembers(setting: Option<string>, ts: seq<string>)
    ensures |Matching(setting, ts)| <= |ts|
    ensures forall t :: t in Matching(setting, ts) <==> t in ts && Markers.LinePatches(setting, t)
    decreases |ts|
  {
    if |ts| > 0 {
      var init := ts[..|ts| - 1];
      MatchingMembers(setting, init);
      assert ts == init + [ts[|ts| - 1]];
    }
  }

  /** The matches among a prefix are a prefix of the matches. */
  lemma {:induction false} MatchingPrefix(setting: Option<string>, ts: seq<string>, n: nat)
    requires n <= |ts|
    ensures |Matching(setting, ts[..n])| <= |Matching(setting, ts)|
    ensures Matching(setting, ts) [..|Matching(setting, ts[..n])|] == Matching(setting, ts[..n])
    decreases |ts|
  {
    if n < |ts| {
      var init := ts[..|ts| - 1];
      assert init[..n] == ts[..n];
      MatchingPrefix(setting, init, n);
    } else {
      assert ts[..n] == ts;
    }
  }

  /* ---------------------------------------------------------------- */
  /* Records                                                           */
  /* ---------------------------------------------------------------- */

  /** Rust's `String::pop`: the last character goes, whatever it is. */
  function DropLast(s: string): (t: string)
    ensures |s| > 0 ==> t + [s[|s| - 1]] == s
    ensures |s| == 0 ==> t == s
  {
    if |s| == 0 then s else s[..|s| - 1]
  }

  /** The record printed for the `j`-th match `m` (0-based) outside file
      mode. The counter of matches, not the line's position, selects the
      blamed line. */
  function MatchRecord(flags: Flags, repo: Repo, path: Path, m: string, j: nat): (rec: Record)
    requires flags.insertion ==> StartsWith(path, repo.root)
    ensures rec.path == path && !rec.FileName?
    ensures m != "" ==> rec.content + [m[|m| - 1]] == m
    ensures flags.insertion <==> rec.Insertion?
  {
    if flags.insertion then
      Insertion(path, DropLast(m), repo.blame(RepositoryLocal(path, repo.root).value, j + 1))
    else LineRecord(path, DropLast(m))
  }

  /** One record per match, in order. */
  function Emitted(flags: Flags, repo: Repo, path: Path, ms: seq<string>): (recs: seq<Record>)
    requires flags.insertion ==> StartsWith(path, repo.root)
    ensures |recs| == |ms|
  {
    seq(|ms|, j requires 0 <= j < |ms| => MatchRecord(flags, repo, path, ms[j], j))
  }

  /** Declarative reading of the scan of one file. In file mode a match
      is the last text tested, so the path is printed once at most. */
  function ScanFile(flags: Flags, repo: Repo, setting: Option<string>, path: Path, file: FileContent): (r: ScanResult)
    requires flags.insertion ==> StartsWith(path, repo.root)
    ensures file.Unopenable? ==> r == ScanResult([], false)
    ensures flags.file ==> |r.records| <= 1
    ensures file.Readable? && !flags.file ==> |r.records| == |Matching(setting, Tested(flags, setting, file.results))|
  {
    match file
    case Unopenable => ScanResult([], false)
    case Readable(results) =>
      var ms := Matching(setting, Tested(flags, setting, results));
      var ok := !Failed(flags, setting, results);
      if flags.file then ScanResult(if |ms| > 0 then [FileName(path)] else [], ok)
      else ScanResult(Emitted(flags, repo, path, ms), ok)
  }

  /* ---------------------------------------------------------------- */
  /* The loop                                                          */
  /* ---------------------------------------------------------------- */

  /** Reading one more line extends the texts by that line. */
  lemma TextsSnoc(results: seq<ReadResult>, k: nat)
    ensures Texts(results, k + 1) == Texts(results, k) + [TextAt(results, k)]
  {
  }

  /** Where the loop can stand: at a read error the scan has failed and
      tested exactly the texts before it; at a line that ends the loop it
      has tested that line as well; any other line lies before the stop. */
  lemma ReadAtStop(flags: Flags, setting: Option<string>, results: seq<ReadResult>, k: nat)
    requires k <= Stop(flags, setting, results)
    ensures var r := ReadAt(results, k);
      && (r.ReadError? ==>
            k == Stop(flags, setting, results) && Failed(flags, setting, results)
            && Texts(results, k) == Tested(flags, setting, results))
      && (r.Read? ==> TextAt(results, k) == r.text)
      && (r.Read? && Ends(flags, setting, r) ==>
            k == Stop(flags, setting, results) && !Failed(flags, setting, results)
            && Texts(results, k + 1) == Tested(flags, setting, results))
      && (!Ends(flags, setting, r) ==> k < Stop(flags, setting, results))
  {
    StopIsFirst(flags, setting, results);
  }

  /** Testing one more text extends the matches by it exactly when it matches. */
  lemma MatchingSnoc(setting: Option<string>, ts: seq<string>, t: string)
    ensures Matching(setting, ts + [t])
            == Matching(setting, ts) + (if Markers.LinePatches(setting, t) then [t] else [])
  {
    assert (ts + [t])[..|ts|] == ts;
  }

  /** Emitting for one more match appends its record. */
  lemma EmittedSnoc(flags: Flags, repo: Repo, path: Path, ms: seq<string>, m: string)
    requires flags.insertion ==> StartsWith(path, repo.root)
    ensures Emitted(flags, repo, path, ms + [m])
            == Emitted(flags, repo, path, ms) + [MatchRecord(flags, repo, path, m, |ms|)]
  {
  }

  /** The properties the program's output has, read off the declarative scan. */
  lemma ScanFileShape(flags: Flags, repo: Repo, setting: Option<string>, path: Path, file: FileContent)
    requires flags.insertion ==> StartsWith(path, repo.root)
    ensures var r := ScanFile(flags, repo, setting, path, file);
      && (flags.file ==> |r.records| <= 1 && forall x :: x in r.records ==> x == FileName(path))
      && (flags.file && file.Readable? ==>
            (|r.records| == 1 <==> |Matching(setting, Tested(flags, setting, file.results))| > 0))
      && (!flags.file && file.Readable? ==>
            |r.records| == |Matching(setting, Tested(flags, setting, file.results))|
            && forall j :: 0 <= j < |r.records| ==>
                 r.records[j].path == path && !r.records[j].FileName?
                 && r.records[j].content == DropLast(Matching(setting, Tested(flags, setting, file.results))[j]))
      && (!flags.file && flags.insertion ==>
            forall j :: 0 <= j < |r.records| ==>
              r.records[j].Insertion? && r.records[j].rev == repo.blame(RepositoryLocal(path, repo.root).value, j + 1))
      && (!r.ok <==> file.Unopenable? || Failed(flags, setting, file.results))
  {
  }

  /* ---------------------------------------------------------------- */
  /* Worked cases                                                      */
  /* ---------------------------------------------------------------- */

  /** The matches among a short list of texts, one at a time. */
  function Kept(setting: Option<string>, t: string): seq<string> {
    if Markers.LinePatches(setting, t) then [t] else []
  }

  lemma MatchingOfTwo(setting: Option<string>, a: string, b: string)
    ensures Matching(setting, [a, b]) == Kept(setting, a) + Kept(setting, b)
  {
    MatchingSnoc(setting, [], a);
    assert [] + [a] == [a];
    MatchingSnoc(setting, [a], b);
    assert [a] + [b] == [a, b];
  }

  lemma MatchingOfThree(setting: Option<string>, a: string, b: string, c: string)
    ensures Matching(setting, [a, b, c]) == Kept(setting, a) + Kept(setting, b) + Kept(setting, c)
  {
    MatchingOfTwo(setting, a, b);
    MatchingSnoc(setting, [a, b], c);
    assert [a, b] + [c] == [a, b, c];
  }

  lemma MatchingOfFour(setting: Option<string>, a: string, b: string, c: string, d: string)
    ensures Matching(setting, [a, b, c, d]) == Kept(setting, a) + Kept(setting, b) + Kept(setting, c) + Kept(setting, d)
  {
    MatchingOfThree(setting, a, b, c);
    MatchingSnoc(setting, [a, b, c], d);
    assert [a, b, c] + [d] == [a, b, c, d];
  }

  /** Which of the texts used below hold the default key. */
  lemma DefaultKeyCases()
    ensures Markers.LinePatches(None, "// FIXME: todo\n")
    ensures Markers.LinePatches(None, "FIXME\n")
    ensures Markers.LinePatches(None, "FIXME 1\n")
    ensures Markers.LinePatches(None, "FIXME")
    ensures !Markers.LinePatches(None, "a\n")
    ensures !Markers.LinePatches(None, "b\n")
    ensures !Markers.LinePatches(None, "x\n")
    ensures !Markers.LinePatches(None, "")
  {
    assert Markers.OccursAt("// FIXME: todo\n", "FIXME", 3);
    Markers.DefaultMatchesFixme("// FIXME: todo\n");
    assert Markers.OccursAt("FIXME\n", "FIXME", 0);
    Markers.DefaultMatchesFixme("FIXME\n");
    assert Markers.OccursAt("FIXME 1\n", "FIXME", 0);
    Markers.DefaultMatchesFixme("FIXME 1\n");
    assert Markers.OccursAt("FIXME", "FIXME", 0);
    Markers.DefaultMatchesFixme("FIXME");
  }

  /** Three lines none of which ends the loop: each is tested, then the
      empty end-of-file text, and the scan does not fail. */
  lemma ThreeLinesRead(flags: Flags, setting: Option<string>, a: string, b: string, c: string)
    requires !Ends(flags, setting, Read(a)) && !Ends(flags, setting, Read(b)) && !Ends(flags, setting, Read(c))
    ensures !Failed(flags, setting, [Read(a), Read(b), Read(c)])
    ensures Tested(flags, setting, [Read(a), Read(b), Read(c)]) == [a, b, c, ""]
  {
    var results := [Read(a), Read(b), Read(c)];
    AllLinesRead(flags, setting, results);
  }

  /** Two lines neither of which ends the loop: both are tested, then the
      empty end-of-file text, and the scan does not fail. */
  lemma TwoLinesRead(flags: Flags, setting: Option<string>, a: string, b: string)
    requires !Ends(flags, setting, Read(a)) && !Ends(flags, setting, Read(b))
    ensures !Failed(flags, setting, [Read(a), Read(b)])
    ensures Tested(flags, setting, [Read(a), Read(b)]) == [a, b, ""]
  {
    AllLinesRead(flags, setting, [Read(a), Read(b)]);
  }

  /** A line that lets the loop go on, then a line that ends it: those two
      are tested, whatever follows is never read, and the scan succeeds. */
  lemma LineThenEnd(flags: Flags, setting: Option<string>, a: string, b: string, rest: seq<ReadResult>)
    requires !Ends(flags, setting, Read(a)) && Ends(flags, setting, Read(b))
    ensures Stop(flags, setting, [Read(a), Read(b)] + rest) == 1
    ensures !Failed(flags, setting, [Read(a), Read(b)] + rest)
    ensures Tested(flags, setting, [Read(a), Read(b)] + rest) == [a, b]
  {
    var results := [Read(a), Read(b)] + rest;
    assert results[0] == Read(a);
    assert results[1..][0] == Read(b);
    assert Stop(flags, setting, results[1..]) == 0;
  }

  /** A marker on the third line gives one record, `path:` and the line
      without its newline; the line number is not part of it. */
  lemma MarkerOnThirdLine(repo: Repo, path: Path)
    ensures ScanFile(Flags(false, false), repo, None, path,
                     Readable([Read("a\n"), Read("b\n"), Read("// FIXME: todo\n")]))
            == ScanResult([LineRecord(path, "// FIXME: todo")], true)
  {
    var flags := Flags(false, false);
    DefaultKeyCases();
    assert DropLast("// FIXME: todo\n") == "// FIXME: todo";
    ThreeLinesRead(flags, None, "a\n", "b\n", "// FIXME: todo\n");
    MatchingOfFour(None, "a\n", "b\n", "// FIXME: todo\n", "");
  }

  /** File mode reports the path once, however many lines match: the first
      match ends the loop and the second line is never tested. */
  lemma FileModeReportsOnce(repo: Repo, path: Path)
    ensures ScanFile(Flags(true, false), repo, None, path,
                     Readable([Read("FIXME 1\n"), Read("FIXME 2\n")]))
            == ScanResult([FileName(path)], true)
    ensures Tested(Flags(true, false), None, [Read("FIXME 1\n"), Read("FIXME 2\n")]) == ["FIXME 1\n"]
  {
    var flags := Flags(true, false);
    var results := [Read("FIXME 1\n"), Read("FIXME 2\n")];
    DefaultKeyCases();
    assert Stop(flags, None, results) == 0;
    assert Tested(flags, None, results) == ["FIXME 1\n"];
    MatchingSnoc(None, [], "FIXME 1\n");
    assert [] + ["FIXME 1\n"] == ["FIXME 1\n"];
  }

  /** A file of one matching line, the only match: one record holding the
      line minus its last character, which is the newline only if the line
      ends with one. A one-character line ends the loop after the pop; a
      longer one is followed by the empty end-of-file text. */
  lemma SingleLineFile(repo: Repo, setting: Option<string>, path: Path, line: string)
    requires line != "" && Markers.LinePatches(setting, line) && !Markers.LinePatches(setting, "")
    ensures ScanFile(Flags(false, false), repo, setting, path, Readable([Read(line)]))
            == ScanResult([LineRecord(path, DropLast(line))], true)
  {
    var flags := Flags(false, false);
    var results := [Read(line)];
    if |line| == 1 {
      assert Ends(flags, setting, results[0]);
      assert Stop(flags, setting, results) == 0;
      assert Tested(flags, setting, results) == [line];
      MatchingSnoc(setting, [], line);
      assert [] + [line] == [line];
    } else {
      AllLinesRead(flags, setting, results);
      assert Tested(flags, setting, results) == [line, ""];
      MatchingOfTwo(setting, line, "");
    }
  }

  /** A last line without a newline loses its last real character. */
  lemma LastLineWithoutNewline(repo: Repo, path: Path)
    ensures ScanFile(Flags(false, false), repo, None, path, Readable([Read("FIXME")]))
            == ScanResult([LineRecord(path, "FIXM")], true)
  {
    DefaultKeyCases();
    SingleLineFile(repo, None, path, "FIXME");
    assert DropLast("FIXME") == "FIXM";
  }

  /** In insertion mode the blamed line is the number of earlier matches
      plus one: a marker on line 2 after an unmarked line 1 is blamed at
      line 1. */
  lemma BlameFollowsMatchCount(repo: Repo)
    requires repo.root == []
    ensures ScanFile(Flags(false, true), repo, None, ["f"],
                     Readable([Read("x\n"), Read("FIXME\n")]))
            == ScanResult([Insertion(["f"], "FIXME", repo.blame(["f"], 1))], true)
  {
    var flags := Flags(false, true);
    DefaultKeyCases();
    assert DropLast("FIXME\n") == "FIXME";
    TwoLinesRead(flags, None, "x\n", "FIXME\n");
    MatchingOfThree(None, "x\n", "FIXME\n", "");
    LocalIsUnique([], ["f"]);
  }

  /** With an empty piece in the setting every tested text is a match. */
  lemma {:induction false} EmptyPieceKeepsAll(v: string, ts: seq<string>)
    requires "" in Markers.Split(v, Markers.Separator)
    ensures Matching(Some(v), ts) == ts
    decreases |ts|
  {
    if |ts| > 0 {
      EmptyPieceKeepsAll(v, ts[..|ts| - 1]);
      Markers.EmptyPieceMatchesEverything(v, ts[|ts| - 1]);
      assert ts[..|ts| - 1] + [ts[|ts| - 1]] == ts;
    }
  }

  /** An empty setting yields the empty key, which also matches the empty
      end-of-file text: after the last line, one extra record with empty
      content. */
  lemma EmptySettingMatchesEndOfFile(repo: Repo, path: Path)
    ensures ScanFile(Flags(false, false), repo, Some(""), path, Readable([Read("a\n")]))
            == ScanResult([LineRecord(path, "a"), LineRecord(path, "")], true)
  {
    var flags := Flags(false, false);
    var results := [Read("a\n")];
    assert Markers.Split("", Markers.Separator) == [""];
    Markers.EmptyPieceMatchesEverything("", "a\n");
    assert DropLast("a\n") == "a";
    AllLinesRead(flags, Some(""), results);
    assert Tested(flags, Some(""), results) == ["a\n", ""];
    EmptyPieceKeepsAll("", Tested(flags, Some(""), results));
  }

  /** With an empty key a blank line matches, and popping its newline
      leaves `contents` empty, so the loop stops there: the lines after it
      are never read, and the scan succeeds. */
  lemma BlankLineEndsScan(repo: Repo, path: Path)
    ensures ScanFile(Flags(false, false), repo, Some(""), path,
                     Readable([Read("a\n"), Read("\n"), Read("b\n")]))
            == ScanResult([LineRecord(path, "a"), LineRecord(path, "")], true)
  {
    var flags := Flags(false, false);
    assert Markers.Split("", Markers.Separator) == [""];
    Markers.EmptyPieceMatchesEverything("", "a\n");
    Markers.EmptyPieceMatchesEverything("", "\n");
    assert DropLast("a\n") == "a";
    assert DropLast("\n") == "";
    LineThenEnd(flags, Some(""), "a\n", "\n", [Read("b\n")]);
    assert [Read("a\n"), Read("\n")] + [Read("b\n")] == [Read("a\n"), Read("\n"), Read("b\n")];
    EmptyPieceKeepsAll("", ["a\n", "\n"]);
  }

  /** A read error after a blank line is never reached under an empty key:
      the blank line ends the loop first and the file counts as a success. */
  lemma BlankLineHidesReadError(repo: Repo, path: Path)
    ensures ScanFile(Flags(false, false), repo, Some(""), path, Readable([Read("\n"), ReadError]))
            == ScanResult([LineRecord(path, "")], true)
  {
    var flags := Flags(false, false);
    var results := [Read("\n"), ReadError];
    assert Markers.Split("", Markers.Separator) == [""];
    Markers.EmptyPieceMatchesEverything("", "\n");
    assert DropLast("\n") == "";
    assert Stop(flags, Some(""), results) == 0;
    assert Tested(flags, Some(""), results) == ["\n"];
    EmptyPieceKeepsAll("", Tested(flags, Some(""), results));
  }

  /** A line that lets the loop go on, then a read error: the scan fails
      after testing that line alone. */
  lemma LineThenError(flags: Flags, setting: Option<string>, line: string)
    requires !Ends(flags, setting, Read(line))
    ensures Stop(flags, setting, [Read(line), ReadError]) == 1
    ensures Failed(flags, setting, [Read(line), ReadError])
    ensures Tested(flags, setting, [Read(line), ReadError]) == [line]
  {
    var results := [Read(line), ReadError];
    assert results[1..] == [ReadError];
    assert Stop(flags, setting, results[1..]) == 0;
  }

  /** A read error fails the file; records of earlier matches stay emitted. */
  lemma ReadErrorAfterMatch(repo: Repo, path: Path)
    ensures ScanFile(Flags(false, false), repo, None, path, Readable([Read("FIXME\n"), ReadError]))
            == ScanResult([LineRecord(path, "FIXME")], false)
  {
    DefaultKeyCases();
    assert DropLast("FIXME\n") == "FIXME";
    LineThenError(Flags(false, false), None, "FIXME\n");
    MatchingSnoc(None, [], "FIXME\n");
    assert [] + ["FIXME\n"] == ["FIXME\n"];
  }

  /** In file mode the first match ends the loop before a later read error
      is reached, so the same file counts as a success. */
  lemma FileModeHidesReadError(repo: Repo, path: Path)
    ensures ScanFile(Flags(true, false), repo, None, path, Readable([Read("FIXME\n"), ReadError]))
            == ScanResult([FileName(path)], true)
  {
    var flags := Flags(true, false);
    var results := [Read("FIXME\n"), ReadError];
    DefaultKeyCases();
    assert Stop(flags, None, results) == 0;
    assert Tested(flags, None, results) == ["FIXME\n"];
    MatchingSnoc(None, [], "FIXME\n");
    assert [] + ["FIXME\n"] == ["FIXME\n"];
  }

  /** `handle_file`: a file that cannot be opened fails at once; otherwise
      the reading loop decides the records and the outcome. */
  method HandleFile(flags: Flags, repo: Repo, setting: Option<string>, path: Path, file: FileContent)
    returns (records: seq<Record>, ok: bool)
    requires flags.insertion ==> StartsWith(path, repo.root)
    ensures ScanResult(records, ok) == ScanFile(flags, repo, setting, path, file)
  {
    if file.Unopenable? {
      return [], false;
    }
    records, ok := ReadLoop(flags, repo, setting, path, file.results);
  }

  /** The loop's state after `k` reads: `i` is the number of matches among
      the texts read, and `records` is nothing yet in file mode and one
      record per match otherwise. */
  predicate SoFar(flags: Flags, repo: Repo, setting: Option<string>, path: Path,
                  results: seq<ReadResult>, k: nat, i: nat, records: seq<Record>)
    requires flags.insertion ==> StartsWith(path, repo.root)
  {
    var ms := Matching(setting, Texts(results, k));
    && i == |ms|
    && (if flags.file then i == 0 && records == [] else records == Emitted(flags, repo, path, ms))
  }

  /** Reading the `k`-th text keeps the state consistent: a match adds the
      record for the `i`-th match, anything else adds nothing. */
  lemma SoFarStep(flags: Flags, repo: Repo, setting: Option<string>, path: Path,
                  results: seq<ReadResult>, k: nat, i: nat, records: seq<Record>)
    requires flags.insertion ==> StartsWith(path, repo.root)
    requires SoFar(flags, repo, setting, path, results, k, i, records)
    requires !(flags.file && Markers.LinePatches(setting, TextAt(results, k)))
    ensures var t := TextAt(results, k);
      if Markers.LinePatches(setting, t)
      then SoFar(flags, repo, setting, path, results, k + 1, i + 1, records + [MatchRecord(flags, repo, path, t, i)])
      else SoFar(flags, repo, setting, path, results, k + 1, i, records)
  {
    var t := TextAt(results, k);
    TextsSnoc(results, k);
    MatchingSnoc(setting, Texts(results, k), t);
    if Markers.LinePatches(setting, t) {
      EmittedSnoc(flags, repo, path, Matching(setting, Texts(results, k)), t);
    }
  }

  /** In file mode, the first match is the last text tested, and the scan
      is the bare path with success. */
  lemma SoFarFirstMatch(flags: Flags, repo: Repo, setting: Option<string>, path: Path,
                        results: seq<ReadResult>, k: nat, i: nat, records: seq<Record>)
    requires flags.insertion ==> StartsWith(path, repo.root)
    requires flags.file && SoFar(flags, repo, setting, path, results, k, i, records)
    requires Texts(results, k + 1) == Tested(flags, setting, results) && !Failed(flags, setting, results)
    requires Markers.LinePatches(setting, TextAt(results, k))
    ensures ScanFile(flags, repo, setting, path, Readable(results)) == ScanResult(records + [FileName(path)], true)
  {
    TextsSnoc(results, k);
    MatchingSnoc(setting, Texts(results, k), TextAt(results, k));
  }

  /** Once every tested text is read, the state is the declarative result. */
  lemma SoFarDone(flags: Flags, repo: Repo, setting: Option<string>, path: Path,
                  results: seq<ReadResult>, k: nat, i: nat, records: seq<Record>)
    requires flags.insertion ==> StartsWith(path, repo.root)
    requires SoFar(flags, repo, setting, path, results, k, i, records)
    requires Texts(results, k) == Tested(flags, setting, results)
    ensures ScanFile(flags, repo, setting, path, Readable(results)) == ScanResult(records, !Failed(flags, setting, results))
  {
  }

  /** The output for the `i`-th match (0-based) outside file mode, given
      the matched text `line` after its last character was popped: the
      path and that text, then either nothing more or the revision that
      blame reports for line `i + 1` of the file. */
  method PrintMatch(flags: Flags, repo: Repo, path: Path, line: string, i: nat) returns (record: Record)
    requires flags.insertion ==> StartsWith(path, repo.root)
    ensures record.path == path && !record.FileName? && record.content == line
    ensures flags.insertion <==> record.Insertion?
    ensures record.Insertion? ==> record.rev == repo.blame(RepositoryLocal(path, repo.root).value, i + 1)
  {
    if flags.insertion {
      var rel := RepositoryLocal(path, repo.root).value;
      record := Insertion(path, line, repo.blame(rel, i + 1));
    } else {
      record := LineRecord(path, line);
    }
  }

  /** The reading loop as the program runs it: `contents` starts as "a" so
      that the loop is entered, a match outside file mode pops the last
      character of `contents` itself before the loop test runs again, `i`
      counts matches and only matches, and a read error returns at once
      with the records already emitted. */
  method ReadLoop(flags: Flags, repo: Repo, setting: Option<string>, path: Path, results: seq<ReadResult>)
    returns (records: seq<Record>, ok: bool)
    requires flags.insertion ==> StartsWith(path, repo.root)
    ensures ScanResult(records, ok) == ScanFile(flags, repo, setting, path, Readable(results))
  {
    var contents := "a";
    var i := 0;
    var k := 0;
    records := [];
    while |contents| > 0
      invariant 0 <= k <= Stop(flags, setting, results) + 1
      invariant |contents| > 0 ==> k <= Stop(flags, setting, results)
      invariant |contents| == 0 ==>
                  Texts(results, k) == Tested(flags, setting, results) && !Failed(flags, setting, results)
      invariant SoFar(flags, repo, setting, path, results, k, i, records)
      decreases Stop(flags, setting, results) + 1 - k
    {
      var r := ReadAt(results, k);
      ReadAtStop(flags, setting, results, k);
      if r.ReadError? {
        SoFarDone(flags, repo, setting, path, results, k, i, records);
        return records, false;
      }
      contents := r.text;
      if Markers.LinePatches(setting, contents) {
        if flags.file {
          SoFarFirstMatch(flags, repo, setting, path, results, k, i, records);
          records := records + [FileName(path)];
          break;
        }
        SoFarStep(flags, repo, setting, path, results, k, i, records);
        contents := DropLast(contents);
        var record := PrintMatch(flags, repo, path, contents, i);
        records := records + [record];
        i := i + 1;
      } else {
        SoFarStep(flags, repo, setting, path, results, k, i, records);
      }
      k := k + 1;
    }
    if !(flags.file && records != []) {
      // the loop test failed rather than the loop breaking at a match
      SoFarDone(flags, repo, setting, path, results, k, i, records);
    }
    return records, true;
  }
}

=== FILE: walker.dfy ===
/** The recursive walk (`iterate_directory`) over an abstract directory
    tree: every entry is classified, directories are entered, tracked files
    are scanned, and every failure on the way is folded into one flag. */
module Walker {
  import opened Wrappers
  import opened Paths
  import opened Repository
  import opened Classify
  import opened Scanner

  /** A directory lists its entries in the order `read_dir` yields them; a
      file carries what reading it would produce. */
  datatype Node = Dir(children: seq<Listing>) | File(content: FileContent)

  /** One item of a directory listing: an entry that could not be read, or
      a named entry whose metadata may or may not be readable. */
  datatype Listing = Unlistable | Entry(name: Component, metaOk: bool, node: Node)

  /** The run's configuration: the two flags and the GIT_FIXME_KEYS setting. */
  datatype Config = Config(flags: Flags, setting: Option<string>)

  /** Records printed, in order, and whether some error happened. */
  datatype WalkResult = WalkResult(records: seq<Record>, error: bool)

  /** What `DirEntry::metadata` reports for an entry. */
  function MetadataOf(metaOk: bool, node: Node): Metadata {
    if metaOk then MetaOk(node.Dir?) else MetaErr
  }

  /** Results of two stretches of a listing, one after the other. */
  function Then(a: WalkResult, b: WalkResult): WalkResult {
    WalkResult(a.records + b.records, a.error || b.error)
  }

  /** Every record names a path below `dir`. */
  predicate AllBelow(records: seq<Record>, dir: Path) {
    forall j :: 0 <= j < |records| ==> StartsWith(records[j].path, dir)
  }

  /** Walks the entries of the directory `dir` in order; there is no early
      exit, so a failure is remembered and the next entry is visited. */
  function IterateDirectory(cfg: Config, repo: Repo, dir: Path, children: seq<Listing>): (r: WalkResult)
    requires StartsWith(dir, repo.root)
    ensures AllBelow(r.records, dir)
    decreases children, 1
  {
    if |children| == 0 then WalkResult([], false)
    else Then(VisitEntry(cfg, repo, dir, children[0]), IterateDirectory(cfg, repo, dir, children[1..]))
  }

  /** One entry of the directory `dir`: an unreadable entry is an error;
      otherwise the classification decides between entering, scanning and
      doing nothing. */
  function VisitEntry(cfg: Config, repo: Repo, dir: Path, e: Listing): (r: WalkResult)
    requires StartsWith(dir, repo.root)
    ensures e.Unlistable? ==> r == WalkResult([], true)
    ensures e.Entry? ==> AllBelow(r.records, dir + [e.name])
    ensures e.Entry? && EntryAction(repo, dir, e).Nothing? ==> r == WalkResult([], EntryAction(repo, dir, e).isError)
    decreases e, 0
  {
    match e
    case Unlistable => WalkResult([], true)
    case Entry(name, metaOk, node) =>
      var path := dir + [name];
      ChildStaysLocal(dir, repo.root, name);
      match GenerateAction(repo, path, MetadataOf(metaOk, node))
      case Enter(p) => IterateDirectory(cfg, repo, p, node.children)
      case Check(p) =>
        var scan := ScanFile(cfg.flags, repo, cfg.setting, p, node.content);
        WalkResult(scan.records, !scan.ok)
      case Nothing(isError) => WalkResult([], isError)
  }

  /** The classification of a named entry of `dir`. */
  function EntryAction(repo: Repo, dir: Path, e: Listing): DirAction
    requires StartsWith(dir, repo.root)
    requires e.Entry?
  {
    ChildStaysLocal(dir, repo.root, e.name);
    GenerateAction(repo, dir + [e.name], MetadataOf(e.metaOk, e.node))
  }

  /* ---------------------------------------------------------------- */
  /* Properties of the walk                                            */
  /* ---------------------------------------------------------------- */

  /** Walking a listing in two stretches gives the two results one after
      the other: every entry is visited whatever happened before it. */
  lemma {:induction false} WalkAppend(cfg: Config, repo: Repo, dir: Path, a: seq<Listing>, b: seq<Listing>)
    requires StartsWith(dir, repo.root)
    ensures IterateDirectory(cfg, repo, dir, a + b)
            == Then(IterateDirectory(cfg, repo, dir, a), IterateDirectory(cfg, repo, dir, b))
    decreases |a|
  {
    if |a| == 0 {
      assert a + b == b;
    } else {
      assert (a + b)[0] == a[0];
      assert (a + b)[1..] == a[1..] + b;
      WalkAppend(cfg, repo, dir, a[1..], b);
      var v := VisitEntry(cfg, repo, dir, a[0]);
      var x := IterateDirectory(cfg, repo, dir, a[1..]);
      var y := IterateDirectory(cfg, repo, dir, b);
      assert v.records + (x.records + y.records) == (v.records + x.records) + y.records;
    }
  }

  /** The walk reports an error exactly when some entry of the directory
      does: an unreadable entry, one classified as an error, a
      subdirectory whose walk failed, or a file whose scan failed. */
  lemma {:induction false} ErrorIffSomeEntryFails(cfg: Config, repo: Repo, dir: Path, children: seq<Listing>)
    requires StartsWith(dir, repo.root)
    ensures IterateDirectory(cfg, repo, dir, children).error
            <==> exists j :: 0 <= j < |children| && VisitEntry(cfg, repo, dir, children[j]).error
    decreases |children|
  {
    if |children| > 0 {
      ErrorIffSomeEntryFails(cfg, repo, dir, children[1..]);
      if exists j :: 0 <= j < |children| && VisitEntry(cfg, repo, dir, children[j]).error {
        var j :| 0 <= j < |children| && VisitEntry(cfg, repo, dir, children[j]).error;
        if j > 0 {
          assert children[1..][j - 1] == children[j];
        }
      }
      if IterateDirectory(cfg, repo, dir, children[1..]).error {
        var j :| 0 <= j < |children| - 1 && VisitEntry(cfg, repo, dir, children[1..][j]).error;
        assert children[1..][j] == children[j + 1];
      }
    }
  }

  /** An entry's failure, case by case, as the walk folds it in. */
  lemma EntryFailureCases(cfg: Config, repo: Repo, dir: Path, e: Listing)
    requires StartsWith(dir, repo.root)
    ensures VisitEntry(cfg, repo, dir, e).error <==>
              || e.Unlistable?
              || (e.Entry? && EntryAction(repo, dir, e) == Nothing(true))
              || (e.Entry? && EntryAction(repo, dir, e).Enter?
                  && IterateDirectory(cfg, repo, dir + [e.name], e.node.children).error)
              || (e.Entry? && EntryAction(repo, dir, e).Check?
                  && !ScanFile(cfg.flags, repo, cfg.setting, dir + [e.name], e.node.content).ok)
  {
  }

  /** An entry classified as nothing-to-do without error can be removed
      from the listing without changing anything the walk prints or
      reports: it is neither scanned nor entered, and sets no error. */
  lemma SkippedEntryIsInert(cfg: Config, repo: Repo, dir: Path, before: seq<Listing>, e: Listing, after: seq<Listing>)
    requires StartsWith(dir, repo.root)
    requires e.Entry? && EntryAction(repo, dir, e) == Nothing(false)
    ensures IterateDirectory(cfg, repo, dir, before + [e] + after)
            == IterateDirectory(cfg, repo, dir, before + after)
  {
    WalkAppend(cfg, repo, dir, before + [e], after);
    WalkAppend(cfg, repo, dir, before, [e]);
    WalkAppend(cfg, repo, dir, before, after);
    var w := IterateDirectory(cfg, repo, dir, before);
    assert IterateDirectory(cfg, repo, dir, [e]) == WalkResult([], false);
    assert w.records + [] == w.records;
  }

  /** Ignored entries, directories and files alike, are inert. */
  lemma IgnoredEntryIsInert(cfg: Config, repo: Repo, dir: Path, before: seq<Listing>, e: Listing, after: seq<Listing>)
    requires StartsWith(dir, repo.root)
    requires e.Entry? && e.metaOk && repo.isIgnored(dir + [e.name]) == IgnoreOk(true)
    ensures IterateDirectory(cfg, repo, dir, before + [e] + after)
            == IterateDirectory(cfg, repo, dir, before + after)
  {
    SkippedEntryIsInert(cfg, repo, dir, before, e, after);
  }

  /** A file missing from the index (or any file, when the index cannot be
      opened) is inert too. */
  lemma UntrackedFileIsInert(cfg: Config, repo: Repo, dir: Path, before: seq<Listing>, e: Listing, after: seq<Listing>)
    requires StartsWith(dir, repo.root)
    requires e.Entry? && e.metaOk && e.node.File? && repo.isIgnored(dir + [e.name]) == IgnoreOk(false)
    requires repo.index.None? || RepositoryLocal(dir + [e.name], repo.root).value !in repo.index.value
    ensures IterateDirectory(cfg, repo, dir, before + [e] + after)
            == IterateDirectory(cfg, repo, dir, before + after)
  {
    ChildStaysLocal(dir, repo.root, e.name);
    SkippedEntryIsInert(cfg, repo, dir, before, e, after);
  }

  /** In file mode the walk prints bare file names only: every record is
      a `FileName`. */
  lemma {:induction false} FileModePrintsNames(cfg: Config, repo: Repo, dir: Path, children: seq<Listing>)
    requires StartsWith(dir, repo.root)
    requires cfg.flags.file
    ensures forall j :: 0 <= j < |IterateDirectory(cfg, repo, dir, children).records| ==>
              IterateDirectory(cfg, repo, dir, children).records[j].FileName?
    decreases children, 1
  {
    if |children| > 0 {
      FileModePrintsNamesEntry(cfg, repo, dir, children[0]);
      FileModePrintsNames(cfg, repo, dir, children[1..]);
    }
  }

  /** One entry in file mode: only file names, and a checked file prints
      its own path at most once. */
  lemma {:induction false} FileModePrintsNamesEntry(cfg: Config, repo: Repo, dir: Path, e: Listing)
    requires StartsWith(dir, repo.root)
    requires cfg.flags.file
    ensures forall j :: 0 <= j < |VisitEntry(cfg, repo, dir, e).records| ==>
              VisitEntry(cfg, repo, dir, e).records[j].FileName?
    ensures e.Entry? && EntryAction(repo, dir, e).Check? ==>
              VisitEntry(cfg, repo, dir, e).records in {[], [FileName(dir + [e.name])]}
    decreases e, 0
  {
    if e.Entry? {
      ChildStaysLocal(dir, repo.root, e.name);
      var action := EntryAction(repo, dir, e);
      if action.Enter? {
        FileModePrintsNames(cfg, repo, dir + [e.name], e.node.children);
      } else if action.Check? {
        ScanFileShape(cfg.flags, repo, cfg.setting, dir + [e.name], e.node.content);
      }
    }
  }
}

=== FILE: wrappers.dfy ===
/** Option, the wrapper the rest of the model uses for
    lookups that may find nothing (an unset environment variable, a path
    that is not under the repository root). */
module Wrappers {

  datatype Option<+T> = None | Some(value: T)
}
